=== FILE: README.md ===
# Asari-Rashidi 3-ply weld-lobe calculation, modelled in Dafny

The application estimates a resistance-spot-welding lobe for a stack of two
or three steel sheets. This project models its calculation section: the
material database, the construction of the active ply list, the stack
aggregates (total and minimum thickness, thickness-weighted resistivity,
maximum carbon equivalent), the heat factor `k_final` with its zinc
derating, the lobe grid coordinates, the tip-efficiency factor, the
polynomial part of the nugget-growth formula, and the two warnings of the
results panel (nugget offset and brittle failure). Arithmetic is exact over
`real`.

Files:

- `results.dfy` — `Option` and `Result`, for a missing dictionary key and a calculation that stops with an error.
- `real_seq.dfy` — `Sum`, `Min`, `Max` and the weighted sum `Dot` over sequences of reals, with their bounds.
- `materials.dfy` — the six grades, their records and the name lookup.
- `stack.dfy` — plies, `BuildPlies` (the list built with a conditional append), the aggregates and the two decision rules.
- `lobe.dfy` — `KFinal` and the method `HeatFactor` (the in-place `*=`), `Linspace` and the three axes, `TipEff`, `NuggetGrowth` and the growth grid.
- `analysis.dfy` — `Evaluate`, one full run from the sidebar values to the report, with the error the source would raise.

This model follows app.py as written:

- Risk is the single `max_ce > 0.3` test. There is no three-level Low/Moderate/High band.
- `k_mod` is in the table but never used. There is no thermal-modifier weighting and no expulsion-sensitivity setting.
- The modelled errors are the `KeyError` and `ZeroDivisionError` cases Python raises. An unknown name is a `KeyError` (`UnknownMaterial`). A zero `total_t` or a zero tip diameter is a `ZeroDivisionError` (`ZeroTotalThickness`, `ZeroTipDiameter`). A negative total thickness is not an error. Float overflow is not modelled (see "Left out").

## Model

| member | source | states |
|---|---|---|
| Materials.Lookup | app.py:40-43 | indexing `materials_db[name]` yields a grade only for the name that is that grade's key; otherwise it yields None (the KeyError case) |
| Materials.LookupName | app.py:13-20 | the six keys are distinct: looking up a grade's own name finds that grade |
| Materials.LookupSucceedsIff | app.py:13-20 | a lookup succeeds exactly for the names of the six registered grades |
| Materials.NilIsNotRegistered | app.py:31 | the "NIL" choice of the third selector is not a database key |
| Materials.PropsInRange | app.py:13-20 | each record has `res_factor` in [1.0, 1.65], `k_mod` in [1.0, 1.25] and `ce` in (0, 0.35] |
| Materials.BoronSteelHasTopCe | app.py:18 | Boron Steel's `ce` is 0.35, no grade exceeds it, and it is the only grade with `ce > 0.3` |
| Materials.ResFactorDistinct | app.py:13-20 | two grades share a `res_factor` exactly when they are the same grade |
| Stack.BuildPlies | app.py:40-43 | plies 1 and 2 always and ply 3 only when its selector is not "NIL", so 2 or 3 entries; each keeps its own grade and thickness in top-to-bottom order; an unknown name stops with that name (ply 1 checked first); with positive thicknesses the list is a well-formed stack, so an absent ply never appears as a zero-thickness entry |
| Stack.TotalThicknessOfPlies | app.py:46 | `total_t` is the sum of the two or three ply thicknesses |
| Stack.TotalThicknessPositive | app.py:46-48 | a well-formed stack has a positive `total_t`, so `avg_res` never divides by zero |
| Stack.MinThicknessIsThinnestPly | app.py:47 | `t_min` is the thickness of some ply and no ply is thinner |
| Stack.MinThicknessTimesCount | app.py:46-47 | `t_min` times the number of plies is at most `total_t` |
| Stack.AvgResBetween | app.py:48 | with positive thicknesses, `avg_res` lies between the smallest and the largest ply `res_factor` |
| Stack.AvgResAtLeastOne | app.py:48 | with positive thicknesses `avg_res` is at least 1.0, the smallest `res_factor` in the table |
| Stack.AvgResOfOneGrade | app.py:48 | a stack of one grade with positive thicknesses has that grade's `res_factor` as `avg_res`, whatever their values |
| Stack.MaxCeIsWorstPly | app.py:49 | `max_ce` is the `ce` of some ply and at least every ply's `ce` |
| Stack.MaxCeWithBoronSteel | app.py:49 | a stack with a Boron Steel ply anywhere has `max_ce` = 0.35 |
| Stack.HighCeMonotone | app.py:84-87 | the brittle-failure flag is monotone in `max_ce`, and exactly 0.3 does not raise it |
| Stack.HighCeIffBoronSteel | app.py:84-87 | the flag is raised exactly when the stack contains a Boron Steel ply |
| Stack.NuggetOffsetIffFactorsDiffer | app.py:80-82 | the nugget-offset warning is raised exactly when two plies have different `res_factor` |
| Stack.NuggetOffsetIffMixedGrades | app.py:80-82 | the warning is raised exactly when the stack mixes grades |
| Stack.MildOverDualPhase | app.py:46-49 | worked case 1.0 mm Mild Steel over 1.2 mm DP600: `total_t` 2.2, `t_min` 1.0, `avg_res` (1.0 + 1.2·1.35)/2.2, `max_ce` 0.18, no brittle flag, nugget offset raised |
| Lobe.HeatFactor | app.py:52-53 | the method's result equals `KFinal`; when `k_base * avg_res` is positive the result is positive and at most `k_base * avg_res` |
| Lobe.ZincScalesHeatFactor | app.py:52-53 | uncoated `k_final` is `k_base * avg_res`; coated `k_final` is exactly 0.82 times uncoated, and strictly smaller when `k_base * avg_res > 0` |
| Lobe.HeatFactorMonotone | app.py:52-53 | with a positive `k_base`, `k_final` is non-decreasing in `avg_res`, coated or not |
| Lobe.Linspace | app.py:57 | `linspace(start, stop, num)` has exactly `num` points |
| Lobe.LinspaceEndpoints | app.py:57 | with at least two points, the first is `start` and the last is `stop` |
| Lobe.LinspaceEvenlySpaced | app.py:57 | neighbouring points are exactly `(stop - start)/(num - 1)` apart |
| Lobe.LinspaceWithin | app.py:57 | with `start <= stop`, every point lies in `[start, stop]` |
| Lobe.AxesShape | app.py:57 | the current axis has 20 points from 5000 to 13000 and the time and force axes 12 points from 3 to 17 and from 150 to 450, endpoints included, all strictly increasing |
| Lobe.TipEffDecreasing | app.py:58 | `tip_eff` is 1 for the 6 mm tip, and for positive tips it is positive and strictly larger for a smaller tip |
| Lobe.TipEffPositive | app.py:58 | every non-zero tip diameter gives a positive `tip_eff` |
| Lobe.NuggetGrowthMonotone | app.py:59 | with positive `k_final`, `tip_eff` and force term, `nugget_growth` is non-decreasing in current and in weld time for non-negative current and time |
| Lobe.GrowthGridMonotone | app.py:57-59 | on the grid, at a fixed force, growth never falls from one current coordinate to the next or from one time coordinate to the next |
| Lobe.LobeGrowthAtEveryPoint | app.py:57-59 | the grid over the three axes holds exactly 20 × 12 × 12 values, and the one at `[i][j][l]` is `nugget_growth` at the i-th current, the j-th time and the force factor of the l-th force coordinate |
| Lobe.GrowthGridNonDecreasing | app.py:57-59 | with positive `k_final`, `tip_eff` and force terms, the whole growth grid is non-decreasing along the current axis and along the time axis |
| Analysis.GrowthOfStackNonDecreasing | app.py:46-59 | for a stack of positive thicknesses, a positive `k_base`, a non-zero tip and positive force terms, `k_final` and `tip_eff` are positive and the run's growth grid is non-decreasing in current and time |
| Analysis.Evaluate | app.py:40-59 | a run succeeds exactly when every selected name is registered, the active thicknesses do not sum to zero and the tip diameter is not zero; otherwise it stops with the first error Python raises; on success the report holds the selected plies, `total_t` = the active thickness sum, the aggregates, `k_final`, the three grid axes (20 currents 5000-13000, 12 times 3-17, 12 forces 150-450), `tip_eff` and `nugget_growth` at every one of the 20 × 12 × 12 grid points, the force factor taken at that point's force coordinate; the offset warning is raised iff grades are mixed, and the brittle flag iff Boron Steel is present; with positive thicknesses, `k_base` and force factors on the force axis, `k_final` and `tip_eff` are positive and the growth grid never falls along current or time |

## Left out

- Streamlit page set-up, sidebar widgets, columns, metrics and messages (app.py:3-9, 23-37, 62-87 as UI). The slider values become inputs, and their ranges (0.5–3.0 mm, 4–10 mm, 0.10–0.60) are not imposed: the model accepts any real.
- The Plotly isosurface (app.py:65-72).
- `target_min = 4 * sqrt(t_min)` and `exp_limit` (app.py:56, 60). They need square roots and the fractional powers `(F/300)**0.1` and `(d_tip/6)**0.2`, which Dafny's `real` does not have.
- The force term `(300/F)**0.25` of `nugget_growth` (app.py:59) is also a fractional power. It enters `NuggetGrowth` and `GrowthGrid` as given values, and `Evaluate` as a given function `forceTerm` that is applied to each force coordinate. It is assumed positive wherever monotonicity is claimed.
- Floating-point rounding: all arithmetic is exact over `real`. This includes numpy's `linspace`, which pins its last point to `stop`; over reals the computed last point already equals `stop`.
- numpy `meshgrid` layout: numpy's arrays have shape (time, current, force). `GrowthGrid` is indexed `[current][time][force]` instead.
- Analysis.Evaluate: float overflow is not modelled; the model computes `tip_eff = (6.0 / d_tip)**2` (app.py:58) exactly for every non-zero `d_tip`. Python behaves differently for tiny tips. For 3.34e-308 < `|d_tip|` < 4.5e-154 the quotient is finite but its square overflows, and the float `**` raises `OverflowError`; the model returns a report instead. For 0 < `|d_tip|` < 3.34e-308 the float `/` already yields `inf` without an error, so Python goes on with `tip_eff = inf`; the model's `tip_eff` is finite. The sliders never produce such a tip.
- The display rounding `round(total_t, 2)` (app.py:76).
- The `[cite: N]` trailers on app.py:26, 29, 35-37, 47, 53 and 56. As written they parse as slices of the value before them (`min(...)[cite:3]`, `0.82[cite:4]`), and since `cite` is never defined the script would stop with `NameError` at app.py:26, before the calculation. The model reads these lines without the trailers, as their authors evidently intended.
- The unused `k_mod` column is kept in the table, but no computation reads it, just as in the source.
- Analysis.Evaluate: the bound `t_min * count <= total_t` is not repeated in its contract. Stack.MinThicknessTimesCount states it about the same functions.

=== FILE: analysis.dfy ===
/** One evaluation of the calculation section, from the sidebar values to
    the stack figures and the two warnings the results panel shows
    (app.py:40-59 and app.py:80-87). Each call recomputes everything from
    its inputs. */
module Analysis {
  import opened Results
  import opened Materials
  import opened RealSeq
  import opened Stack
  import opened Lobe

  /** The stack selectors: a grade name and a thickness for plies 1 and 2,
      and for ply 3 a grade name or "NIL" with the thickness the sidebar
      gives it (0.0 when it is "NIL"). */
  datatype Selection = Selection(mat1: string, t1: real, mat2: string, t2: real, choice3: string, t3: real)
  {
    function Names(): seq<string> { Selected(mat1, mat2, choice3) }

    /** Every selected name is a registered grade. */
    predicate Registered()
    {
      forall name <- Names() :: Lookup(name).Some?
    }

    /** The first selected name that is not a registered grade. */
    function FirstUnknown(): string
    {
      if Lookup(mat1).None? then mat1 else if Lookup(mat2).None? then mat2 else choice3
    }

    /** The sum of the thicknesses of the plies that take part. */
    function ActiveTotal(): real
    {
      t1 + t2 + (if choice3 == Nil then 0.0 else t3)
    }

    /** Every ply that takes part has a positive thickness. */
    predicate PositiveThicknesses()
    {
      t1 > 0.0 && t2 > 0.0 && (choice3 != Nil ==> t3 > 0.0)
    }
  }

  /** The machine settings. */
  datatype Settings = Settings(isZinc: bool, dTip: real, kBase: real)

  /** The stack figures, the lobe grid with its nugget growth, and the two
      warnings. */
  datatype Report = Report(
    plies: seq<Ply>,
    totalT: real,
    tMin: real,
    avgRes: real,
    maxCe: real,
    kFinal: real,
    tipEff: real,
    currents: seq<real>,
    times: seq<real>,
    forces: seq<real>,
    growth: seq<seq<seq<real>>>,
    nuggetOffset: bool,
    highCe: bool)

  /** The error the calculation stops with, in the order Python raises them:
      an unknown grade, then a zero `total_t`, then a zero tip diameter. */
  function FirstFailure(sel: Selection): Error
  {
    if !sel.Registered() then UnknownMaterial(sel.FirstUnknown())
    else if sel.ActiveTotal() == 0.0 then ZeroTotalThickness
    else ZeroTipDiameter
  }

  /** For a stack of positive thicknesses, a positive `k_base`, a non-zero
      tip diameter and positive force terms, `k_final` and `tip_eff` are
      positive and the nugget growth over the lobe grid is non-decreasing in
      current and in weld time. */
  lemma GrowthOfStackNonDecreasing(p: seq<Ply>, machine: Settings, forceTerms: seq<real>)
    requires p != [] && AllPositive(Thicknesses(p))
    requires machine.kBase > 0.0 && machine.dTip != 0.0 && AllPositive(forceTerms)
    ensures TotalThickness(p) > 0.0
    ensures KFinal(machine.kBase, AvgRes(p), machine.isZinc) > 0.0
    ensures TipEff(machine.dTip) > 0.0
    ensures NonDecreasingInCurrentAndTime(
      GrowthGrid(KFinal(machine.kBase, AvgRes(p), machine.isZinc), TipEff(machine.dTip),
                 CurrentAxis(), TimeAxis(), forceTerms))
  {
    AvgResAtLeastOne(p);
    var avgRes := AvgRes(p);
    var k := KFinal(machine.kBase, avgRes, machine.isZinc);
    assert k > 0.0 by {
      MulMonotone(machine.kBase, 1.0, avgRes);
      ZincScalesHeatFactor(machine.kBase, avgRes);
    }
    TipEffPositive(machine.dTip);
    GrowthGridNonDecreasing(k, TipEff(machine.dTip), forceTerms);
  }

  /** Runs the calculation in the order of the source: build the ply list,
      aggregate it, derive `k_final`, lay out the grid axes, derive
      `tip_eff` and the nugget growth over the grid, and draw the two
      warnings, or stop with the first error Python raises. The force factor
      `(300/F)**0.25` is a fractional power, so it is passed in as
      `forceTerm` and applied to each force coordinate. */
  method Evaluate(sel: Selection, machine: Settings, forceTerm: real -> real) returns (r: Result<Report, Error>)
    ensures r.Ok? <==> sel.Registered() && sel.ActiveTotal() != 0.0 && machine.dTip != 0.0
    ensures r.Err? ==> r.error == FirstFailure(sel)
    ensures r.Ok? ==> var rep := r.value;
      && PliesFor(rep.plies, sel.Names(), [sel.t1, sel.t2, sel.t3])
      && rep.totalT == sel.ActiveTotal()
      && rep.totalT == TotalThickness(rep.plies)
      && rep.tMin == MinThickness(rep.plies)
      && rep.avgRes == AvgRes(rep.plies)
      && rep.maxCe == MaxCe(rep.plies)
      && rep.kFinal == KFinal(machine.kBase, rep.avgRes, machine.isZinc)
      && rep.tipEff == TipEff(machine.dTip)
      && rep.currents == CurrentAxis() && rep.times == TimeAxis() && rep.forces == ForceAxis()
      && rep.growth == GrowthGrid(rep.kFinal, rep.tipEff, rep.currents, rep.times, ForceTerms(forceTerm))
      && GrowthAtEveryPoint(rep.growth, rep.kFinal, rep.tipEff, forceTerm)
      && (rep.nuggetOffset <==> exists i, j :: 0 <= i < |rep.plies| && 0 <= j < |rep.plies| &&
                                               rep.plies[i].mat != rep.plies[j].mat)
      && (rep.highCe <==> exists i :: 0 <= i < |rep.plies| && rep.plies[i].mat == BoronSteel)
    ensures r.Ok? && sel.PositiveThicknesses() && machine.kBase > 0.0 && AllPositive(ForceTerms(forceTerm)) ==>
      && r.value.kFinal > 0.0
      && r.value.tipEff > 0.0
      && NonDecreasingInCurrentAndTime(r.value.growth)
  {
    var built := BuildPlies(sel.mat1, sel.t1, sel.mat2, sel.t2, sel.choice3, sel.t3);
    if built.Err? {
      return Err(built.error);
    }
    var plies := built.value;
    var totalT := TotalThickness(plies);
    TotalThicknessOfPlies(plies);
    var tMin := MinThickness(plies);
    if totalT == 0.0 {
      return Err(ZeroTotalThickness);
    }
    var avgRes := AvgRes(plies);
    var maxCe := MaxCe(plies);
    var kFinal := HeatFactor(machine.kBase, avgRes, machine.isZinc);
    if machine.dTip == 0.0 {
      return Err(ZeroTipDiameter);
    }
    var currents, times, forces := CurrentAxis(), TimeAxis(), ForceAxis();
    var tipEff := TipEff(machine.dTip);
    var forceTerms := ForceTerms(forceTerm);
    var growth := GrowthGrid(kFinal, tipEff, currents, times, forceTerms);
    LobeGrowthAtEveryPoint(kFinal, tipEff, forceTerm);
    if sel.PositiveThicknesses() && machine.kBase > 0.0 && AllPositive(forceTerms) {
      GrowthOfStackNonDecreasing(plies, machine, forceTerms);
    }
    var nuggetOffset := NuggetOffset(plies);
    var highCe := HighCe(maxCe);
    NuggetOffsetIffMixedGrades(plies);
    HighCeIffBoronSteel(plies);
    return Ok(Report(plies, totalT, tMin, avgRes, maxCe, kFinal, tipEff,
                     currents, times, forces, growth, nuggetOffset, highCe));
  }
}

=== FILE: lobe.dfy ===
/** The heat factor and the weld-lobe grid inputs: `k_final` with its zinc
    derating (app.py:52-53), the evenly spaced current, time and force
    coordinates (app.py:57), the tip-efficiency factor (app.py:58) and the
    polynomial part of `nugget_growth` (app.py:59). The force term
    `(300/F)**0.25` is a fractional power and enters as a given positive
    value per force coordinate. */
module Lobe {
  import opened RealSeq

  /** The derating applied to the heat factor of a zinc-coated stack. */
  const ZincDerating: real := 0.82

  /** `k_final` as a value: `k_base * avg_res`, derated for zinc coating.
      HeatFactor computes it the way the calculation does. */
  function KFinal(kBase: real, avgRes: real, isZinc: bool): real
  {
    if isZinc then kBase * avgRes * ZincDerating else kBase * avgRes
  }

  /** Computes `k_final`: the product of the base k-factor and the average
      resistivity, multiplied in place by 0.82 when the stack is zinc coated. */
  method HeatFactor(kBase: real, avgRes: real, isZinc: bool) returns (k: real)
    ensures k == KFinal(kBase, avgRes, isZinc)
    ensures kBase * avgRes > 0.0 ==> 0.0 < k <= kBase * avgRes
  {
    k := kBase * avgRes;
    if isZinc {
      k := k * ZincDerating;
    }
  }

  /** Zinc coating scales the heat factor by exactly 0.82, and so lowers it
      strictly whenever `k_base * avg_res` is positive; without coating the
      heat factor is `k_base * avg_res` itself. */
  lemma ZincScalesHeatFactor(kBase: real, avgRes: real)
    ensures KFinal(kBase, avgRes, false) == kBase * avgRes
    ensures KFinal(kBase, avgRes, true) == 0.82 * KFinal(kBase, avgRes, false)
    ensures kBase * avgRes > 0.0 ==> KFinal(kBase, avgRes, true) < KFinal(kBase, avgRes, false)
  {
  }

  /** With a positive base k-factor, the heat factor grows with the average
      resistivity, coated or not. */
  lemma HeatFactorMonotone(kBase: real, r1: real, r2: real, isZinc: bool)
    requires kBase > 0.0 && r1 <= r2
    ensures KFinal(kBase, r1, isZinc) <= KFinal(kBase, r2, isZinc)
  {
    MulMonotone(kBase, r1, r2);
    MulMonotone(ZincDerating, kBase * r1, kBase * r2);
  }

  /** `np.linspace(start, stop, num)`: `num` evenly spaced points from
      `start` to `stop`, both included. */
  function Linspace(start: real, stop: real, num: nat): (r: seq<real>)
    ensures |r| == num
  {
    if num == 1 then [start]
    else
      var step := Step(start, stop, num);
      seq(num, i requires 0 <= i < num => start + (i as real) * step)
  }

  /** The spacing of `Linspace(start, stop, num)` for `num >= 2`. */
  function Step(start: real, stop: real, num: nat): real
  {
    if num < 2 then 0.0 else (stop - start) / ((num - 1) as real)
  }

  /** Linspace includes both endpoints. */
  lemma LinspaceEndpoints(start: real, stop: real, num: nat)
    requires num >= 2
    ensures Linspace(start, stop, num)[0] == start
    ensures Linspace(start, stop, num)[num - 1] == stop
  {
    var r, step := Linspace(start, stop, num), Step(start, stop, num);
    var n := (num - 1) as real;
    assert r[num - 1] == start + n * step;
    DivCancel(stop - start, n);
  }

  /** Neighbouring Linspace points are exactly `Step` apart. */
  lemma LinspaceEvenlySpaced(start: real, stop: real, num: nat)
    requires num >= 2
    ensures forall i :: 0 <= i < num - 1 ==>
      Linspace(start, stop, num)[i + 1] - Linspace(start, stop, num)[i] == Step(start, stop, num)
  {
    var r, step := Linspace(start, stop, num), Step(start, stop, num);
    forall i | 0 <= i < num - 1 ensures r[i + 1] - r[i] == step {
      assert r[i + 1] == start + (i as real + 1.0) * step;
      Succ(i as real, step);
    }
  }

  /** With `start <= stop`, every Linspace point lies within `[start, stop]`. */
  lemma LinspaceWithin(start: real, stop: real, num: nat)
    requires num >= 1 && start <= stop
    ensures forall i :: 0 <= i < num ==> start <= Linspace(start, stop, num)[i] <= stop
  {
    if num >= 2 {
      var r, step := Linspace(start, stop, num), Step(start, stop, num);
      var n := (num - 1) as real;
      assert n * step == stop - start by { DivCancel(stop - start, n); }
      forall i | 0 <= i < num ensures start <= r[i] <= stop {
        assert r[i] == start + (i as real) * step;
        PointWithin(start, stop, step, i as real, n);
      }
    }
  }

  /** A point `k` steps from `start`, with `k` in `[0, n]` and `n` steps
      spanning `[start, stop]`, lies within `[start, stop]`. */
  lemma PointWithin(start: real, stop: real, step: real, k: real, n: real)
    requires start <= stop && n > 0.0 && 0.0 <= k <= n && n * step == stop - start
    ensures start <= start + k * step <= stop
  {
    assert step >= 0.0;
    MulMonotone(step, 0.0, k);
    MulMonotone(step, k, n);
  }

  /** `(d / n) * n` is `d` again. */
  lemma DivCancel(d: real, n: real)
    requires n > 0.0
    ensures n * (d / n) == d
  {
  }

  /** `n + 1` copies of `x` are `x` plus `n` copies. */
  lemma Succ(n: real, x: real)
    ensures (n + 1.0) * x == n * x + x
  {
  }

  /** The current axis: 20 points from 5000 A to 13000 A. */
  function CurrentAxis(): seq<real> { Linspace(5000.0, 13000.0, 20) }

  /** The weld-time axis: 12 points from 3 to 17 cycles. */
  function TimeAxis(): seq<real> { Linspace(3.0, 17.0, 12) }

  /** The force axis: 12 points from 150 kgf to 450 kgf. */
  function ForceAxis(): seq<real> { Linspace(150.0, 450.0, 12) }

  /** Each axis strictly increases from one endpoint to the other. */
  predicate Increasing(s: seq<real>)
  {
    forall i :: 0 <= i < |s| - 1 ==> s[i] < s[i + 1]
  }

  /** The three grid axes have 20, 12 and 12 points, include their
      endpoints and strictly increase. */
  lemma AxesShape()
    ensures |CurrentAxis()| == 20 && CurrentAxis()[0] == 5000.0 && CurrentAxis()[19] == 13000.0
    ensures |TimeAxis()| == 12 && TimeAxis()[0] == 3.0 && TimeAxis()[11] == 17.0
    ensures |ForceAxis()| == 12 && ForceAxis()[0] == 150.0 && ForceAxis()[11] == 450.0
    ensures Increasing(CurrentAxis()) && Increasing(TimeAxis()) && Increasing(ForceAxis())
  {
    LinspaceEndpoints(5000.0, 13000.0, 20);
    LinspaceEndpoints(3.0, 17.0, 12);
    LinspaceEndpoints(150.0, 450.0, 12);
    LinspaceEvenlySpaced(5000.0, 13000.0, 20);
    LinspaceEvenlySpaced(3.0, 17.0, 12);
    LinspaceEvenlySpaced(150.0, 450.0, 12);
    assert Step(5000.0, 13000.0, 20) > 0.0;
    assert Step(3.0, 17.0, 12) > 0.0;
    assert Step(150.0, 450.0, 12) > 0.0;
  }

  /** `tip_eff = (6.0 / d_tip)**2`. Python raises ZeroDivisionError for a
      zero tip diameter. */
  function TipEff(dTip: real): real
    requires dTip != 0.0
  {
    (6.0 / dTip) * (6.0 / dTip)
  }

  /** The 6 mm reference tip has efficiency 1, and a smaller positive tip
      diameter gives a strictly larger, positive efficiency. */
  lemma TipEffDecreasing(d1: real, d2: real)
    requires 0.0 < d1 < d2
    ensures TipEff(6.0) == 1.0
    ensures 0.0 < TipEff(d2) < TipEff(d1)
  {
    var q1, q2 := 6.0 / d1, 6.0 / d2;
    assert 0.0 < q2 < q1 by { DivLess(6.0, d1, d2); }
    MulMonotone(q2, q2, q1);
    StrictMul(q1, q2, q1);
  }

  /** Every non-zero tip diameter gives a positive tip efficiency. */
  lemma TipEffPositive(dTip: real)
    requires dTip != 0.0
    ensures TipEff(dTip) > 0.0
  {
    var q := 6.0 / dTip;
    assert q != 0.0;
    if q < 0.0 {
      StrictMul(-q, 0.0, -q);
    } else {
      StrictMul(q, 0.0, q);
    }
  }

  /** Dividing a positive value by a larger positive divisor gives less. */
  lemma DivLess(c: real, d1: real, d2: real)
    requires c > 0.0 && 0.0 < d1 < d2
    ensures 0.0 < c / d2 < c / d1
  {
  }

  /** Scaling by a positive factor preserves `<`. */
  lemma StrictMul(a: real, x: real, y: real)
    requires a > 0.0 && x < y
    ensures a * x < a * y
  {
  }

  /** The pointwise `nugget_growth`: `k_final * ((I * tip_eff) / 10000)**2
      * (T / 10) * (300 / F)**0.25 * 5.5`, with the force term given. */
  function NuggetGrowth(kFinal: real, current: real, time: real, tipEff: real, forceTerm: real): real
  {
    var density := (current * tipEff) / 10000.0;
    kFinal * (density * density) * (time / 10.0) * forceTerm * 5.5
  }

  /** With a positive heat factor, tip efficiency and force term, growth is
      non-decreasing in current and in weld time over non-negative values. */
  lemma NuggetGrowthMonotone(kFinal: real, i1: real, i2: real, t1: real, t2: real, tipEff: real, forceTerm: real)
    requires kFinal > 0.0 && tipEff > 0.0 && forceTerm > 0.0
    requires 0.0 <= i1 <= i2 && 0.0 <= t1 <= t2
    ensures NuggetGrowth(kFinal, i1, t1, tipEff, forceTerm) <= NuggetGrowth(kFinal, i2, t2, tipEff, forceTerm)
  {
    var x1, x2 := (i1 * tipEff) / 10000.0, (i2 * tipEff) / 10000.0;
    assert 0.0 <= x1 <= x2 by {
      MulMonotone(tipEff, 0.0, i1);
      MulMonotone(tipEff, i1, i2);
    }
    var s1, s2 := x1 * x1, x2 * x2;
    assert 0.0 <= s1 <= s2 by {
      MulMonotone(x1, x1, x2);
      MulMonotone(x2, x1, x2);
    }
    var u1, u2 := t1 / 10.0, t2 / 10.0;
    var c := kFinal * forceTerm * 5.5;
    assert c > 0.0;
    ProductMonotone(s1, s2, u1, u2);
    MulMonotone(c, s1 * u1, s2 * u2);
    assert NuggetGrowth(kFinal, i1, t1, tipEff, forceTerm) == c * (s1 * u1);
    assert NuggetGrowth(kFinal, i2, t2, tipEff, forceTerm) == c * (s2 * u2);
  }

  /** Products of non-negative values are monotone in both factors. */
  lemma ProductMonotone(a1: real, a2: real, b1: real, b2: real)
    requires 0.0 <= a1 <= a2 && 0.0 <= b1 <= b2
    ensures a1 * b1 <= a2 * b2
  {
    MulMonotone(a1, b1, b2);
    MulMonotone(b2, a1, a2);
  }

  /** The force factor `(300/F)**0.25` at each point of `ForceAxis()`;
      `forceTerm` stands for that fractional power. */
  function ForceTerms(forceTerm: real -> real): seq<real>
  {
    seq(|ForceAxis()|, l requires 0 <= l < |ForceAxis()| => forceTerm(ForceAxis()[l]))
  }

  /** The dense evaluation of `nugget_growth` over the grid, indexed
      `[current][time][force]`. */
  function GrowthGrid(kFinal: real, tipEff: real, currents: seq<real>, times: seq<real>, forceTerms: seq<real>)
    : seq<seq<seq<real>>>
  {
    seq(|currents|, i requires 0 <= i < |currents| =>
      seq(|times|, j requires 0 <= j < |times| =>
        seq(|forceTerms|, l requires 0 <= l < |forceTerms| =>
          NuggetGrowth(kFinal, currents[i], times[j], tipEff, forceTerms[l]))))
  }

  /** On the lobe grid, for a fixed force, growth never falls from one
      current coordinate to the next or from one time coordinate to the
      next, when the heat factor, tip efficiency and force terms are positive. */
  lemma GrowthGridMonotone(kFinal: real, tipEff: real, forceTerms: seq<real>, i: nat, j: nat, l: nat)
    requires kFinal > 0.0 && tipEff > 0.0 && AllPositive(forceTerms)
    requires i < |CurrentAxis()| && j < |TimeAxis()| && l < |forceTerms|
    ensures var g := GrowthGrid(kFinal, tipEff, CurrentAxis(), TimeAxis(), forceTerms);
      && (i + 1 < |CurrentAxis()| ==> g[i][j][l] <= g[i + 1][j][l])
      && (j + 1 < |TimeAxis()| ==> g[i][j][l] <= g[i][j + 1][l])
  {
    var cs, ts := CurrentAxis(), TimeAxis();
    AxesShape();
    LinspaceWithin(5000.0, 13000.0, 20);
    LinspaceWithin(3.0, 17.0, 12);
    var f := forceTerms[l];
    if i + 1 < |cs| {
      NuggetGrowthMonotone(kFinal, cs[i], cs[i + 1], ts[j], ts[j], tipEff, f);
    }
    if j + 1 < |ts| {
      NuggetGrowthMonotone(kFinal, cs[i], cs[i], ts[j], ts[j + 1], tipEff, f);
    }
  }

  /** `g` holds one `nugget_growth` value for every point of the lobe grid:
      20 currents by 12 times by 12 forces, the value at `[i][j][l]` being
      the growth at current `CurrentAxis()[i]`, time `TimeAxis()[j]` and the
      force factor at `ForceAxis()[l]`. */
  ghost predicate GrowthAtEveryPoint(g: seq<seq<seq<real>>>, kFinal: real, tipEff: real, forceTerm: real -> real)
  {
    && |g| == |CurrentAxis()| == 20
    && (forall i :: 0 <= i < |g| ==> |g[i]| == |TimeAxis()| == 12)
    && (forall i, j :: 0 <= i < |g| && 0 <= j < |g[i]| ==> |g[i][j]| == |ForceAxis()| == 12)
    && (forall i, j, l :: 0 <= i < |g| && 0 <= j < |g[i]| && 0 <= l < |g[i][j]| ==>
          g[i][j][l] == NuggetGrowth(kFinal, CurrentAxis()[i], TimeAxis()[j], tipEff, forceTerm(ForceAxis()[l])))
  }

  /** The growth grid over the three lobe axes, with the force factor applied
      to each force coordinate, has one value per grid point. */
  lemma LobeGrowthAtEveryPoint(kFinal: real, tipEff: real, forceTerm: real -> real)
    ensures GrowthAtEveryPoint(GrowthGrid(kFinal, tipEff, CurrentAxis(), TimeAxis(), ForceTerms(forceTerm)),
                               kFinal, tipEff, forceTerm)
  {
    AxesShape();
  }

  /** Along the current axis and along the time axis of a grid indexed
      `[current][time][force]`, no value is smaller than the one before it. */
  ghost predicate NonDecreasingInCurrentAndTime(g: seq<seq<seq<real>>>)
  {
    forall i, j, l {:trigger g[i][j][l]} :: 0 <= i < |g| && 0 <= j < |g[i]| && 0 <= l < |g[i][j]| ==>
      && (i + 1 < |g| && j < |g[i + 1]| && l < |g[i + 1][j]| ==> g[i][j][l] <= g[i + 1][j][l])
      && (j + 1 < |g[i]| && l < |g[i][j + 1]| ==> g[i][j][l] <= g[i][j + 1][l])
  }

  /** The whole growth grid over the lobe axes is non-decreasing in current
      and in time when the heat factor, tip efficiency and force terms are
      positive. */
  lemma GrowthGridNonDecreasing(kFinal: real, tipEff: real, forceTerms: seq<real>)
    requires kFinal > 0.0 && tipEff > 0.0 && AllPositive(forceTerms)
    ensures NonDecreasingInCurrentAndTime(GrowthGrid(kFinal, tipEff, CurrentAxis(), TimeAxis(), forceTerms))
  {
    var g := GrowthGrid(kFinal, tipEff, CurrentAxis(), TimeAxis(), forceTerms);
    forall i, j, l {:trigger g[i][j][l]} | 0 <= i < |g| && 0 <= j < |g[i]| && 0 <= l < |g[i][j]|
      ensures i + 1 < |g| && j < |g[i + 1]| && l < |g[i + 1][j]| ==> g[i][j][l] <= g[i + 1][j][l]
      ensures j + 1 < |g[i]| && l < |g[i][j + 1]| ==> g[i][j][l] <= g[i][j + 1][l]
    {
      GrowthGridMonotone(kFinal, tipEff, forceTerms, i, j, l);
    }
  }
}

=== FILE: materials.dfy ===
/** The material database: six registered sheet-steel grades, each with a
    resistivity factor, a thermal modifier and a carbon equivalent, looked
    up by the name the stack selectors offer (app.py:13-20). */
module Materials {
  import opened Results

  /** The registered grades, in the order of the database. */
  datatype Material =
    | MildSteel      // "Mild Steel (JSC270)"
    | HighStrength   // "High Strength (JSC440)"
    | DP600          // "DP600 (Dual Phase)"
    | DP980          // "DP980 (Ultra High Strength)"
    | BoronSteel     // "Boron Steel (Usibor 1500)"
    | TripSteel      // "Trip Steel (TRIP780)"

  /** One database record: `res_factor`, `k_mod` and `ce`. */
  datatype Props = Props(resFactor: real, kMod: real, ce: real)

  /** The database key of a grade. */
  function Name(m: Material): string
  {
    match m
    case MildSteel => "Mild Steel (JSC270)"
    case HighStrength => "High Strength (JSC440)"
    case DP600 => "DP600 (Dual Phase)"
    case DP980 => "DP980 (Ultra High Strength)"
    case BoronSteel => "Boron Steel (Usibor 1500)"
    case TripSteel => "Trip Steel (TRIP780)"
  }

  /** The database record of a grade. */
  function PropsOf(m: Material): Props
  {
    match m
    case MildSteel => Props(1.0, 1.0, 0.08)
    case HighStrength => Props(1.15, 1.05, 0.14)
    case DP600 => Props(1.35, 1.12, 0.18)
    case DP980 => Props(1.50, 1.20, 0.24)
    case BoronSteel => Props(1.65, 1.25, 0.35)
    case TripSteel => Props(1.40, 1.15, 0.22)
  }

  /** Dictionary indexing `materials_db[name]`: the grade registered under
      `name`, or None where Python raises KeyError. */
  function Lookup(name: string): (r: Option<Material>)
    ensures r.Some? ==> Name(r.value) == name
  {
    if name == Name(MildSteel) then Some(MildSteel)
    else if name == Name(HighStrength) then Some(HighStrength)
    else if name == Name(DP600) then Some(DP600)
    else if name == Name(DP980) then Some(DP980)
    else if name == Name(BoronSteel) then Some(BoronSteel)
    else if name == Name(TripSteel) then Some(TripSteel)
    else None
  }

  /** Every grade's name finds that grade again: the six keys are distinct. */
  lemma LookupName(m: Material)
    ensures Lookup(Name(m)) == Some(m)
  {
    match m
    case MildSteel =>
    case HighStrength =>
      assert Name(HighStrength)[0] != Name(MildSteel)[0];
    case DP600 =>
      assert Name(DP600)[0] != Name(MildSteel)[0] && Name(DP600)[0] != Name(HighStrength)[0];
    case DP980 =>
      assert Name(DP980)[0] != Name(MildSteel)[0] && Name(DP980)[0] != Name(HighStrength)[0];
      assert Name(DP980)[2] != Name(DP600)[2];
    case BoronSteel =>
      assert Name(BoronSteel)[0] !in {Name(MildSteel)[0], Name(HighStrength)[0], Name(DP600)[0]};
    case TripSteel =>
      assert Name(TripSteel)[0] !in {Name(MildSteel)[0], Name(HighStrength)[0], Name(DP600)[0], Name(BoronSteel)[0]};
  }

  /** A lookup succeeds exactly for the names of the registered grades. */
  lemma LookupSucceedsIff(name: string)
    ensures Lookup(name).Some? <==> exists m: Material :: Name(m) == name
  {
    if m: Material :| Name(m) == name {
      LookupName(m);
    }
  }

  /** The placeholder "NIL" that marks an absent third ply is not a key. */
  lemma NilIsNotRegistered()
    ensures Lookup("NIL") == None
  {
    var nil := "NIL";
    forall m: Material ensures Name(m) != nil {
      assert Name(m)[0] != nil[0];
    }
  }

  /** Every record has a positive resistivity factor and thermal modifier
      and a positive carbon equivalent of at most 0.35. */
  lemma PropsInRange(m: Material)
    ensures 1.0 <= PropsOf(m).resFactor <= 1.65
    ensures 1.0 <= PropsOf(m).kMod <= 1.25
    ensures 0.0 < PropsOf(m).ce <= 0.35
  {
  }

  /** Boron Steel has the largest carbon equivalent of the table, 0.35, and it
      is the only grade whose carbon equivalent exceeds 0.3. */
  lemma BoronSteelHasTopCe(m: Material)
    ensures PropsOf(BoronSteel).ce == 0.35
    ensures PropsOf(m).ce <= PropsOf(BoronSteel).ce
    ensures PropsOf(m).ce > 0.3 <==> m == BoronSteel
  {
  }

  /** No two grades share a resistivity factor. */
  lemma ResFactorDistinct(a: Material, b: Material)
    ensures PropsOf(a).resFactor == PropsOf(b).resFactor <==> a == b
  {
  }
}

=== FILE: real_seq.dfy ===
/** Aggregates over finite sequences of reals: the `sum`, `min` and `max`
    that the calculation applies to generators over the ply list, and the
    sum of pairwise products that a thickness-weighted mean is built from.
    Arithmetic is exact (`real`); floating-point rounding is not modelled. */
module RealSeq {

  /** Sum of the elements, added from 0 (Python's `sum`). */
  function Sum(s: seq<real>): real
  {
    if s == [] then 0.0 else s[0] + Sum(s[1..])
  }

  /** Smallest element. Like Python's `min`, defined on non-empty input only. */
  function Min(s: seq<real>): (m: real)
    requires s != []
    ensures m in s
    ensures forall i :: 0 <= i < |s| ==> m <= s[i]
  {
    if |s| == 1 then s[0]
    else
      var rest := Min(s[1..]);
      if s[0] <= rest then s[0] else rest
  }

  /** Largest element. Like Python's `max`, defined on non-empty input only. */
  function Max(s: seq<real>): (m: real)
    requires s != []
    ensures m in s
    ensures forall i :: 0 <= i < |s| ==> s[i] <= m
  {
    if |s| == 1 then s[0]
    else
      var rest := Max(s[1..]);
      if s[0] >= rest then s[0] else rest
  }

  /** Sum of the pairwise products `ws[i] * vs[i]`. */
  function Dot(ws: seq<real>, vs: seq<real>): real
    requires |ws| == |vs|
  {
    if ws == [] then 0.0 else ws[0] * vs[0] + Dot(ws[1..], vs[1..])
  }

  /** Every element is strictly positive. */
  predicate AllPositive(s: seq<real>)
  {
    forall i :: 0 <= i < |s| ==> s[i] > 0.0
  }

  /** A sum of non-empty, strictly positive values is strictly positive. */
  lemma {:induction false} SumPositive(s: seq<real>)
    requires s != [] && AllPositive(s)
    ensures Sum(s) > 0.0
  {
    if |s| > 1 {
      SumPositive(s[1..]);
    }
  }

  /** A sum of values within `[lo, hi]` lies between `|s|` copies of `lo`
      and `|s|` copies of `hi`. */
  lemma {:induction false} SumBetween(s: seq<real>, lo: real, hi: real)
    requires forall i :: 0 <= i < |s| ==> lo <= s[i] <= hi
    ensures (|s| as real) * lo <= Sum(s) <= (|s| as real) * hi
  {
    if s != [] {
      SumBetween(s[1..], lo, hi);
      var n := |s[1..]| as real;
      assert |s| as real == n + 1.0;
      SumStep(n, s[0], Sum(s[1..]), lo, hi);
    }
  }

  /** The arithmetic of one step of SumBetween: adding one element within
      `[lo, hi]` to a sum of `n` elements within `[lo, hi]`. */
  lemma SumStep(n: real, x: real, rest: real, lo: real, hi: real)
    requires n >= 0.0 && lo <= x <= hi
    requires n * lo <= rest <= n * hi
    ensures (n + 1.0) * lo <= x + rest <= (n + 1.0) * hi
  {
  }

  /** Scaling by a non-negative factor preserves `<=`. */
  lemma MulMonotone(a: real, x: real, y: real)
    requires a >= 0.0 && x <= y
    ensures a * x <= a * y
  {
  }

  /** With non-negative weights, a weighted sum of values in `[lo, hi]`
      lies between `lo` and `hi` times the total weight. */
  lemma {:induction false} DotBounds(ws: seq<real>, vs: seq<real>, lo: real, hi: real)
    requires |ws| == |vs|
    requires forall i :: 0 <= i < |ws| ==> ws[i] >= 0.0
    requires forall i :: 0 <= i < |vs| ==> lo <= vs[i] <= hi
    ensures lo * Sum(ws) <= Dot(ws, vs) <= hi * Sum(ws)
  {
    if ws != [] {
      DotBounds(ws[1..], vs[1..], lo, hi);
      DotStep(ws[0], vs[0], Sum(ws[1..]), Dot(ws[1..], vs[1..]), lo, hi);
    }
  }

  /** The arithmetic of one step of DotBounds: adding the product of a
      non-negative weight `w` and a value `v` within `[lo, hi]`. */
  lemma DotStep(w: real, v: real, tail: real, rest: real, lo: real, hi: real)
    requires w >= 0.0 && lo <= v <= hi
    requires lo * tail <= rest <= hi * tail
    ensures lo * (w + tail) <= w * v + rest <= hi * (w + tail)
  {
    MulMonotone(w, lo, v);
    MulMonotone(w, v, hi);
  }

  /** The weighted mean `Dot(ws, vs) / Sum(ws)` with strictly positive weights
      of values within `[lo, hi]` lies within `[lo, hi]`. */
  lemma MeanWithin(ws: seq<real>, vs: seq<real>, lo: real, hi: real)
    requires |ws| == |vs| && ws != []
    requires AllPositive(ws)
    requires forall i :: 0 <= i < |vs| ==> lo <= vs[i] <= hi
    ensures Sum(ws) > 0.0
    ensures lo <= Dot(ws, vs) / Sum(ws) <= hi
  {
    var x, d := Dot(ws, vs), Sum(ws);
    assert d > 0.0 by { SumPositive(ws); }
    assert lo * d <= x <= hi * d by { DotBounds(ws, vs, lo, hi); }
    BetweenAfterDivide(x, d, lo, hi);
  }

  /** In particular the weighted mean lies between the smallest and the
      largest value. */
  lemma MeanBetween(ws: seq<real>, vs: seq<real>)
    requires |ws| == |vs| && ws != []
    requires AllPositive(ws)
    ensures Sum(ws) > 0.0
    ensures Min(vs) <= Dot(ws, vs) / Sum(ws) <= Max(vs)
  {
    MeanWithin(ws, vs, Min(vs), Max(vs));
  }

  /** Dividing `lo * d <= x <= hi * d` by a positive `d`. */
  lemma BetweenAfterDivide(x: real, d: real, lo: real, hi: real)
    requires d > 0.0 && lo * d <= x <= hi * d
    ensures lo <= x / d <= hi
  {
  }

  /** The weighted mean of values that are all equal to `c` is `c`. */
  lemma MeanOfConstant(ws: seq<real>, vs: seq<real>, c: real)
    requires |ws| == |vs| && ws != []
    requires AllPositive(ws)
    requires forall i :: 0 <= i < |vs| ==> vs[i] == c
    ensures Sum(ws) > 0.0
    ensures Dot(ws, vs) / Sum(ws) == c
  {
    MeanWithin(ws, vs, c, c);
  }

  /** The maximum and the minimum differ exactly when two elements differ. */
  lemma MinMaxDifferIff(s: seq<real>)
    requires s != []
    ensures Max(s) != Min(s) <==>
            exists i, j :: 0 <= i < |s| && 0 <= j < |s| && s[i] != s[j]
  {
    if Max(s) != Min(s) {
      var i :| 0 <= i < |s| && s[i] == Max(s);
      var j :| 0 <= j < |s| && s[j] == Min(s);
      assert s[i] != s[j];
    }
  }
}

=== FILE: results.dfy ===
/** Failure-carrying return values: an absent dictionary key, or a
    calculation that stops with an error instead of a value. */
module Results {

  datatype Option<+T> = None | Some(value: T)

  datatype Result<+T, +E> = Ok(value: T) | Err(error: E)
}

=== FILE: stack.dfy ===
/** The sheet stack: building the list of active plies from the three ply
    selectors (app.py:40-43), the stack-level aggregates over it
    (app.py:46-49) and the two decisions drawn from them, the nugget-offset
    warning (app.py:80-82) and the high carbon-equivalent flag (app.py:84-87). */
module Stack {
  import opened Results
  import opened Materials
  import opened RealSeq

  /** One active sheet: its grade (which determines its database record) and
      its thickness in mm. */
  datatype Ply = Ply(mat: Material, t: real)
  {
    function Record(): Props { PropsOf(mat) }
  }

  /** Why a calculation stops without a result. */
  datatype Error =
    | UnknownMaterial(name: string)  // KeyError from `materials_db[name]`
    | ZeroTotalThickness             // ZeroDivisionError in `avg_res`
    | ZeroTipDiameter                // ZeroDivisionError in `tip_eff`

  /** The selector value that marks the third ply as absent. */
  const Nil: string := "NIL"

  /** The selector names of the plies, top to bottom. */
  function Selected(mat1: string, mat2: string, choice3: string): seq<string>
  {
    if choice3 == Nil then [mat1, mat2] else [mat1, mat2, choice3]
  }

  /** The plies `p` are the selected grades, top to bottom, each with its own
      thickness from `ts`. */
  predicate PliesFor(p: seq<Ply>, names: seq<string>, ts: seq<real>)
  {
    |p| == |names| <= |ts| &&
    forall i :: 0 <= i < |p| ==> Name(p[i].mat) == names[i] && p[i].t == ts[i]
  }

  /** A stack of two or three plies, each strictly thicker than zero. */
  predicate WellFormed(p: seq<Ply>)
  {
    2 <= |p| <= 3 && AllPositive(Thicknesses(p))
  }

  /** Builds `active_plies`: plies 1 and 2 always, ply 3 appended only when
      its selector is not "NIL". Each grade is looked up in the database
      (ply 1 first); an unregistered name stops the calculation. */
  method BuildPlies(mat1: string, t1: real, mat2: string, t2: real, choice3: string, t3: real)
    returns (r: Result<seq<Ply>, Error>)
    ensures r.Ok? <==> forall name <- Selected(mat1, mat2, choice3) :: Lookup(name).Some?
    ensures r.Err? ==> r.error == UnknownMaterial(
      if Lookup(mat1).None? then mat1 else if Lookup(mat2).None? then mat2 else choice3)
    ensures r.Ok? ==> PliesFor(r.value, Selected(mat1, mat2, choice3), [t1, t2, t3])
    ensures r.Ok? && t1 > 0.0 && t2 > 0.0 && (choice3 != Nil ==> t3 > 0.0) ==> WellFormed(r.value)
  {
    var m1 := Lookup(mat1);
    if m1.None? {
      return Err(UnknownMaterial(mat1));
    }
    var m2 := Lookup(mat2);
    if m2.None? {
      return Err(UnknownMaterial(mat2));
    }
    var plies := [Ply(m1.value, t1), Ply(m2.value, t2)];
    if choice3 != Nil {
      var m3 := Lookup(choice3);
      if m3.None? {
        return Err(UnknownMaterial(choice3));
      }
      plies := plies + [Ply(m3.value, t3)];
    }
    return Ok(plies);
  }

  /** The generator `p['t'] for p in active_plies`. */
  function Thicknesses(p: seq<Ply>): seq<real>
  {
    seq(|p|, i requires 0 <= i < |p| => p[i].t)
  }

  /** The generator `p['props']['res_factor'] for p in active_plies` (`res_vals`). */
  function ResFactors(p: seq<Ply>): seq<real>
  {
    seq(|p|, i requires 0 <= i < |p| => p[i].Record().resFactor)
  }

  /** The generator `p['props']['ce'] for p in active_plies`. */
  function Ces(p: seq<Ply>): seq<real>
  {
    seq(|p|, i requires 0 <= i < |p| => p[i].Record().ce)
  }

  /** `total_t`. */
  function TotalThickness(p: seq<Ply>): real
  {
    Sum(Thicknesses(p))
  }

  /** `t_min`. */
  function MinThickness(p: seq<Ply>): real
    requires p != []
  {
    Min(Thicknesses(p))
  }

  /** `avg_res`: the thickness-weighted mean resistivity factor. Python
      raises ZeroDivisionError when `total_t` is zero. */
  function AvgRes(p: seq<Ply>): real
    requires TotalThickness(p) != 0.0
  {
    Dot(Thicknesses(p), ResFactors(p)) / TotalThickness(p)
  }

  /** `max_ce`. */
  function MaxCe(p: seq<Ply>): real
    requires p != []
  {
    Max(Ces(p))
  }

  /** The nugget-offset warning: raised when the plies' resistivity factors
      are not all equal. */
  predicate NuggetOffset(p: seq<Ply>)
    requires p != []
  {
    Max(ResFactors(p)) != Min(ResFactors(p))
  }

  /** The brittle-failure flag: raised when the maximum carbon equivalent
      exceeds 0.3. */
  predicate HighCe(maxCe: real)
  {
    maxCe > 0.3
  }

  /** `total_t` adds up the plies' own thicknesses, top to bottom. */
  lemma TotalThicknessOfPlies(p: seq<Ply>)
    requires 2 <= |p| <= 3
    ensures TotalThickness(p) == p[0].t + p[1].t + (if |p| == 3 then p[2].t else 0.0)
  {
    var ts := Thicknesses(p);
    assert Sum(ts[2..]) == if |p| == 3 then p[2].t else 0.0 by {
      if |p| == 3 {
        assert ts[2..][1..] == [];
      } else {
        assert ts[2..] == [];
      }
    }
    assert ts[1..][1..] == ts[2..];
    assert Sum(ts[1..]) == p[1].t + Sum(ts[2..]);
    assert Sum(ts) == p[0].t + Sum(ts[1..]);
  }

  /** A well-formed stack has a strictly positive total thickness, so
      `avg_res` never divides by zero. */
  lemma TotalThicknessPositive(p: seq<Ply>)
    requires WellFormed(p)
    ensures TotalThickness(p) > 0.0
  {
    SumPositive(Thicknesses(p));
  }

  /** `t_min` is the thickness of some ply and no ply is thinner. */
  lemma MinThicknessIsThinnestPly(p: seq<Ply>)
    requires p != []
    ensures exists i :: 0 <= i < |p| && p[i].t == MinThickness(p)
    ensures forall i :: 0 <= i < |p| ==> MinThickness(p) <= p[i].t
  {
    var ts := Thicknesses(p);
    var k :| 0 <= k < |ts| && ts[k] == Min(ts);
    assert p[k].t == MinThickness(p);
    forall i | 0 <= i < |p| ensures MinThickness(p) <= p[i].t {
      assert ts[i] == p[i].t;
    }
  }

  /** `t_min` times the number of plies is at most `total_t`. */
  lemma MinThicknessTimesCount(p: seq<Ply>)
    requires p != []
    ensures (|p| as real) * MinThickness(p) <= TotalThickness(p)
  {
    var ts := Thicknesses(p);
    var tMin, n := MinThickness(p), |p| as real;
    assert n * tMin <= Sum(ts) by {
      SumBetween(ts, tMin, Max(ts));
    }
  }

  /** With strictly positive thicknesses, `avg_res` lies between the
      smallest and the largest resistivity factor of the plies. */
  lemma AvgResBetween(p: seq<Ply>)
    requires p != [] && AllPositive(Thicknesses(p))
    ensures TotalThickness(p) > 0.0
    ensures Min(ResFactors(p)) <= AvgRes(p) <= Max(ResFactors(p))
  {
    MeanBetween(Thicknesses(p), ResFactors(p));
  }

  /** With positive thicknesses `avg_res` is at least 1.0, the smallest
      `res_factor` of the table. */
  lemma AvgResAtLeastOne(p: seq<Ply>)
    requires p != [] && AllPositive(Thicknesses(p))
    ensures TotalThickness(p) > 0.0
    ensures AvgRes(p) >= 1.0
  {
    var rs := ResFactors(p);
    AvgResBetween(p);
    var k :| 0 <= k < |rs| && rs[k] == Min(rs);
    PropsInRange(p[k].mat);
  }

  /** A stack made of one grade has that grade's resistivity factor as
      `avg_res`, whatever the thicknesses. */
  lemma AvgResOfOneGrade(p: seq<Ply>, m: Material)
    requires p != [] && AllPositive(Thicknesses(p))
    requires forall i :: 0 <= i < |p| ==> p[i].mat == m
    ensures TotalThickness(p) > 0.0
    ensures AvgRes(p) == PropsOf(m).resFactor
  {
    MeanOfConstant(Thicknesses(p), ResFactors(p), PropsOf(m).resFactor);
  }

  /** `max_ce` is the carbon equivalent of some ply and no ply exceeds it. */
  lemma MaxCeIsWorstPly(p: seq<Ply>)
    requires p != []
    ensures exists i :: 0 <= i < |p| && p[i].Record().ce == MaxCe(p)
    ensures forall i :: 0 <= i < |p| ==> p[i].Record().ce <= MaxCe(p)
  {
    var cs := Ces(p);
    var k :| 0 <= k < |cs| && cs[k] == Max(cs);
    assert p[k].Record().ce == MaxCe(p);
    forall i | 0 <= i < |p| ensures p[i].Record().ce <= MaxCe(p) {
      assert cs[i] == p[i].Record().ce;
    }
  }

  /** A stack with a Boron Steel ply anywhere has `max_ce` = 0.35. */
  lemma MaxCeWithBoronSteel(p: seq<Ply>)
    requires exists i :: 0 <= i < |p| && p[i].mat == BoronSteel
    ensures p != [] && MaxCe(p) == 0.35
  {
    var b :| 0 <= b < |p| && p[b].mat == BoronSteel;
    MaxCeIsWorstPly(p);
    var k :| 0 <= k < |p| && p[k].Record().ce == MaxCe(p);
    BoronSteelHasTopCe(p[k].mat);
  }

  /** The high-CE flag is monotone: a larger maximum carbon equivalent never
      clears it, and exactly 0.3 does not raise it. */
  lemma HighCeMonotone(a: real, b: real)
    requires a <= b
    ensures HighCe(a) ==> HighCe(b)
    ensures !HighCe(0.3)
  {
  }

  /** With the registered grades, the high-CE flag is raised exactly when
      the stack holds a Boron Steel ply. */
  lemma HighCeIffBoronSteel(p: seq<Ply>)
    requires p != []
    ensures HighCe(MaxCe(p)) <==> exists i :: 0 <= i < |p| && p[i].mat == BoronSteel
  {
    MaxCeIsWorstPly(p);
    var k :| 0 <= k < |p| && p[k].Record().ce == MaxCe(p);
    BoronSteelHasTopCe(p[k].mat);
    if exists i :: 0 <= i < |p| && p[i].mat == BoronSteel {
      MaxCeWithBoronSteel(p);
    }
  }

  /** The nugget-offset warning is raised exactly when two plies have
      different resistivity factors. */
  lemma NuggetOffsetIffFactorsDiffer(p: seq<Ply>)
    requires p != []
    ensures NuggetOffset(p) <==>
      exists i, j :: 0 <= i < |p| && 0 <= j < |p| && p[i].Record().resFactor != p[j].Record().resFactor
  {
    var rs := ResFactors(p);
    MinMaxDifferIff(rs);
    if exists i, j :: 0 <= i < |p| && 0 <= j < |p| && p[i].Record().resFactor != p[j].Record().resFactor {
      var i, j :| 0 <= i < |p| && 0 <= j < |p| && p[i].Record().resFactor != p[j].Record().resFactor;
      assert rs[i] != rs[j];
    }
  }

  /** With the registered grades, whose resistivity factors are distinct,
      the nugget-offset warning is raised exactly when the stack mixes grades. */
  lemma NuggetOffsetIffMixedGrades(p: seq<Ply>)
    requires p != []
    ensures NuggetOffset(p) <==> exists i, j :: 0 <= i < |p| && 0 <= j < |p| && p[i].mat != p[j].mat
  {
    NuggetOffsetIffFactorsDiffer(p);
    forall i, j | 0 <= i < |p| && 0 <= j < |p|
      ensures p[i].Record().resFactor != p[j].Record().resFactor <==> p[i].mat != p[j].mat
    {
      ResFactorDistinct(p[i].mat, p[j].mat);
    }
  }

  /** A worked two-ply stack: 1.0 mm Mild Steel over 1.2 mm DP600. */
  lemma MildOverDualPhase()
    ensures var p := [Ply(MildSteel, 1.0), Ply(DP600, 1.2)];
      && TotalThickness(p) == 2.2
      && MinThickness(p) == 1.0
      && AvgRes(p) == (1.0 * 1.0 + 1.2 * 1.35) / 2.2
      && MaxCe(p) == 0.18
      && !HighCe(MaxCe(p))
      && NuggetOffset(p)
  {
    var p := [Ply(MildSteel, 1.0), Ply(DP600, 1.2)];
    TotalThicknessOfPlies(p);
    var ts, rs, cs := Thicknesses(p), ResFactors(p), Ces(p);
    assert ts[1..] == [1.2] && rs[1..] == [1.35] && cs[1..] == [0.18];
  }
}
